=== FILE: README.md ===
# Camera heart-rate SDK: a Dafny model of the PPG pipeline

This project models the core of an Android SDK that measures heart rate by
photoplethysmography (PPG). A fingertip covers the phone's camera, and the
SDK turns the frames into a heart rate in beats per minute. The model follows
the Java classes `HeartRateAnalyzer` and `CameraHeartRateManager`:

- **`HeartRateAnalyzer.analyze`** runs once per camera frame:
  - it applies a 100 ms rate limit;
  - it tests whether a finger covers the lens (more than 80% red-dominant
    pixels in a central block a quarter of the width by a quarter of the
    height, so 1/16 of the pixels);
  - it records the mean red intensity of the frame, sampled every 10th
    pixel;
  - on the 31st buffered sample it runs the pipeline: smoothing, peak
    detection, R-R intervals, a bounded interval history, an outlier filter
    and the rate `60000 / mean interval`;
  - it then notifies every registered listener.
- **`CameraHeartRateManager`** holds at most one analyzer. It forwards
  listener registration and frames only while it holds one.

Each Java method is a pure Dafny function over an immutable state. The
analyzer's fields are the datatype `Analyzer.State`. One call of `analyze`
is `Analyzer.Analyze`, which returns the next state and the set of
notifications sent. `System.currentTimeMillis()` is the parameter `now`. A
bitmap that could not be decoded is `None`.

Modules, one per concern of the Java code:

| file | module | models |
|---|---|---|
| `wrappers.dfy` | `Wrappers` | `Option`, which stands for Java's `null` |
| `sequences.dfy` | `Sequences` | subsequences, selecting by a keep-mask, insertion sort (`Collections.sort`) |
| `rr_filter.dfy` | `RRFilter` | `median`, `filterRRByChange` |
| `rr_history.dfy` | `RRHistory` | `addRRElements` |
| `peak_detection.dfy` | `PeakDetection` | `smoothData`, `findPeaks`, `calculateRR` |
| `heart_rate.dfy` | `HeartRate` | `calculateHeartRate` |
| `frame_analysis.dfy` | `FrameAnalysis` | pixels, bitmaps, `isFingerCoveringCamera`, `calculateAverageRedIntensity` |
| `analyzer.dfy` | `Analyzer` | the analyzer's fields, `analyze`, listener registration |
| `manager.dfy` | `CameraHeartRateManager` | the manager's lifecycle and sequences of calls |
| `scenarios.dfy` | `Scenarios` | concrete input/output cases of the functions above |

### Behaviour of the code that differs from its comments and intent

The model follows the code as written in each case below.

- **Integer-division deviation.** `filterRRByChange` computes the
  deviation as a `Long` integer quotient `|a − b| / b`. The quotient is 0
  or at least 1, so the threshold 0.3 behaves like "keep when
  `|a − b| < b`". A change of 30% or even 43% is not removed
  (`RRFilter.PassKeepsIffWithinReference`,
  `Scenarios.FilterKeepsLargeJumps`).
- **Smoothing window.** The window is `[i − 2, i + 2)`, which is four wide
  and not centred, clamped at the ends.
- **History capacity.** The call site passes a capacity of 10, not 30. A
  batch longer than the capacity is kept whole. So the history can exceed
  the capacity, but only by the size of a single batch
  (`Scenarios.OversizedBatchReplacesHistory`).
- **Rate is truncated, not rounded.** The `(int)` cast truncates. The
  1400 ms limit therefore gives 42 bpm, not 43.
- **No smoothing or hysteresis of the rate.** The fields `lastHeartRate`
  and `heartRateSmooth` are never used.
- **History clearing without a finger.** The history is cleared only when
  at least one listener is registered, because the `clear()` call sits
  inside the loop over listeners.
- **`lastAnalyzedTimestamp`.** It advances on every processed frame with a
  finger present. It does not advance on finger-absent frames or
  undecodable frames.

## Model

| member | source | states |
|---|---|---|
| RRFilter.TruncHalf | cameraheartratesdk/src/main/java/com/azure/cameraheartratesdk/manager/HeartRateAnalyzer.java:341 | `(long)(v / 2.0)` is within one half of v/2, and equals v/2 for v ≥ 0 |
| RRFilter.Median | cameraheartratesdk/src/main/java/com/azure/cameraheartratesdk/manager/HeartRateAnalyzer.java:336-345 | the median lies between the smallest and largest element; for odd length it is one of the elements, for even length the two middle elements of the sorted copy, summed and halved with truncation |
| RRFilter.MedianOfOddLength | cameraheartratesdk/src/main/java/com/azure/cameraheartratesdk/manager/HeartRateAnalyzer.java:337-343 | for odd length the median is the middle element of the sorted copy |
| RRFilter.Reference | cameraheartratesdk/src/main/java/com/azure/cameraheartratesdk/manager/HeartRateAnalyzer.java:303-308 | the value each interval is compared with (the median for the first, the predecessor otherwise) is a positive in-range interval, so the divisions are defined |
| RRFilter.FilterPass | cameraheartratesdk/src/main/java/com/azure/cameraheartratesdk/manager/HeartRateAnalyzer.java:312-318 | one pass keeps exactly the intervals `PassMask` flags, in order: for the 0.3 threshold, those differing from their reference by less than the reference. It keeps the length exactly when it changes nothing |
| RRFilter.PassKeepsIffWithinReference | cameraheartratesdk/src/main/java/com/azure/cameraheartratesdk/manager/HeartRateAnalyzer.java:303-315 | for any threshold in [0, 1), the whole-number deviation passes the comparison iff the interval differs from its reference by less than the reference |
| RRFilter.Deviation | cameraheartratesdk/src/main/java/com/azure/cameraheartratesdk/manager/HeartRateAnalyzer.java:303-308 | the `Long` quotient `abs(a - b) / b` is the number of whole multiples of b in the distance: d·b ≤ abs(a − b) < (d + 1)·b |
| RRFilter.PassMask | cameraheartratesdk/src/main/java/com/azure/cameraheartratesdk/manager/HeartRateAnalyzer.java:301-318 | one verdict per interval; a negative threshold keeps nothing, and a threshold in [0, 1) keeps exactly the intervals that differ from their reference by less than the reference |
| RRFilter.FilterLoop | cameraheartratesdk/src/main/java/com/azure/cameraheartratesdk/manager/HeartRateAnalyzer.java:292-326 | the repeat-until-stable loop returns an in-range subsequence that is shorter than 3 or a fixed point of one pass; a list shorter than 3, or one a pass leaves unchanged, comes back as it is |
| RRFilter.RangeGate | cameraheartratesdk/src/main/java/com/azure/cameraheartratesdk/manager/HeartRateAnalyzer.java:281-289 | the gate returns an order-preserving subsequence of in-range intervals with one element per in-range input interval, so it keeps exactly those, in order; an all-in-range list passes unchanged |
| RRFilter.FilterRRByChange | cameraheartratesdk/src/main/java/com/azure/cameraheartratesdk/manager/HeartRateAnalyzer.java:273-328 | null in iff null out; the output is an in-range subsequence of the input and stable under one more pass; an in-range input that is shorter than 3 or pass-stable, such as [1000, 1000, 1000], is returned whole |
| RRFilter.FilterIdempotent | cameraheartratesdk/src/main/java/com/azure/cameraheartratesdk/manager/HeartRateAnalyzer.java:273-328 | filtering a filtered list changes nothing |
| RRFilter.SelectInRange | cameraheartratesdk/src/main/java/com/azure/cameraheartratesdk/manager/HeartRateAnalyzer.java:313-318 | keeping only in-range elements yields an in-range list |
| Sequences.Select | cameraheartratesdk/src/main/java/com/azure/cameraheartratesdk/manager/HeartRateAnalyzer.java:313-318 | keeping the flagged elements gives a subsequence with one element per set flag that contains every flagged element; a one-element list is kept iff its flag is set |
| Sequences.SelectAppend | cameraheartratesdk/src/main/java/com/azure/cameraheartratesdk/manager/HeartRateAnalyzer.java:313-318 | selection distributes over concatenation, so with the one-element case it keeps exactly the flagged positions, in order |
| Sequences.CountKept | cameraheartratesdk/src/main/java/com/azure/cameraheartratesdk/manager/HeartRateAnalyzer.java:321 | the number of kept elements equals the length iff every flag is set |
| Sequences.SortSortedPermutation | cameraheartratesdk/src/main/java/com/azure/cameraheartratesdk/manager/HeartRateAnalyzer.java:337-338 | the sorted copy is sorted and a permutation of the list |
| Sequences.InsertSortedPermutation | cameraheartratesdk/src/main/java/com/azure/cameraheartratesdk/manager/HeartRateAnalyzer.java:338 | insertion into a sorted list keeps it sorted and adds exactly the element |
| Sequences.SubsequenceTransitive | cameraheartratesdk/src/main/java/com/azure/cameraheartratesdk/manager/HeartRateAnalyzer.java:292-326 | a subsequence of a subsequence is a subsequence, so the repeated passes only ever remove intervals |
| Sequences.SubsequenceMembers | cameraheartratesdk/src/main/java/com/azure/cameraheartratesdk/manager/HeartRateAnalyzer.java:283-289 | a subsequence is no longer than the list and draws its members from it |
| RRHistory.Evicted | cameraheartratesdk/src/main/java/com/azure/cameraheartratesdk/manager/HeartRateAnalyzer.java:246-256 | never more elements are removed than the history holds |
| RRHistory.AddRRElements | cameraheartratesdk/src/main/java/com/azure/cameraheartratesdk/manager/HeartRateAnalyzer.java:241-262 | null adds nothing; otherwise the result is a suffix of the old history followed by the whole batch, fits in max(capacity, batch size), equals plain concatenation when that fits and is exactly that long otherwise |
| PeakDetection.SmoothData | cameraheartratesdk/src/main/java/com/azure/cameraheartratesdk/manager/HeartRateAnalyzer.java:147-160 | same length; each output is the mean of a non-empty window around its index, clamped at the ends, at most four wide |
| PeakDetection.SmoothStaysInBounds | cameraheartratesdk/src/main/java/com/azure/cameraheartratesdk/manager/HeartRateAnalyzer.java:147-160 | smoothing never leaves the range of the input |
| PeakDetection.SmoothFlatSignal | cameraheartratesdk/src/main/java/com/azure/cameraheartratesdk/manager/HeartRateAnalyzer.java:147-160 | a constant signal is unchanged |
| PeakDetection.MeanBounds | cameraheartratesdk/src/main/java/com/azure/cameraheartratesdk/manager/HeartRateAnalyzer.java:153-157 | a window average lies between the window's bounds |
| PeakDetection.FindPeaks | cameraheartratesdk/src/main/java/com/azure/cameraheartratesdk/manager/HeartRateAnalyzer.java:137-145 | an index is reported iff it is a strict local maximum; indices ascend at least two apart; fewer than three samples give none |
| PeakDetection.PeakCountBound | cameraheartratesdk/src/main/java/com/azure/cameraheartratesdk/manager/HeartRateAnalyzer.java:137-145 | k peaks need at least 2k + 1 samples |
| PeakDetection.UnimodalSinglePeak | cameraheartratesdk/src/main/java/com/azure/cameraheartratesdk/manager/HeartRateAnalyzer.java:137-145 | a strictly rising then strictly falling signal has exactly its summit as a peak |
| PeakDetection.CalculateRR | cameraheartratesdk/src/main/java/com/azure/cameraheartratesdk/manager/HeartRateAnalyzer.java:105-116 | null iff fewer than two peaks of the smoothed signal; otherwise one interval per consecutive pair, the timestamp difference of the two peaks |
| PeakDetection.IntervalsAtLeastTwoGaps | cameraheartratesdk/src/main/java/com/azure/cameraheartratesdk/manager/HeartRateAnalyzer.java:105-116 | with samples at least `gap` ms apart, every interval is at least 2·gap |
| PeakDetection.SpacedDistance | cameraheartratesdk/src/main/java/com/azure/cameraheartratesdk/manager/HeartRateAnalyzer.java:42 | samples at least `gap` apart are at least `gap·(j − i)` apart over j − i steps |
| HeartRate.SaturateInt | cameraheartratesdk/src/main/java/com/azure/cameraheartratesdk/manager/HeartRateAnalyzer.java:128 | the `(int)` cast stays within the int range and is the identity inside it |
| HeartRate.RateFromTotal | cameraheartratesdk/src/main/java/com/azure/cameraheartratesdk/manager/HeartRateAnalyzer.java:123-128 | for a positive total, bpm is the largest integer with bpm·total ≤ 60000·n (unless saturated) |
| HeartRate.CalculateHeartRate | cameraheartratesdk/src/main/java/com/azure/cameraheartratesdk/manager/HeartRateAnalyzer.java:118-131 | null and empty give 0; otherwise bpm is 60000 divided by the mean interval, truncated, within the int range |
| HeartRate.SumInRange | cameraheartratesdk/src/main/java/com/azure/cameraheartratesdk/manager/HeartRateAnalyzer.java:124-126 | the sum of n in-range intervals lies in [300n, 1400n] |
| HeartRate.RateOfPlausibleIntervals | cameraheartratesdk/src/main/java/com/azure/cameraheartratesdk/manager/HeartRateAnalyzer.java:118-131 | a non-empty list of intervals in [300, 1400] ms gives a rate in [42, 200] bpm |
| FrameAnalysis.Pack | cameraheartratesdk/src/main/java/com/azure/cameraheartratesdk/manager/HeartRateAnalyzer.java:203-206 | shifting the packed word right by 16, 8 and 0 bits and masking with 0xFF recovers the red, green and blue bytes |
| FrameAnalysis.Unpack | cameraheartratesdk/src/main/java/com/azure/cameraheartratesdk/manager/HeartRateAnalyzer.java:203-206 | the extracted channels, re-packed under the word's own alpha byte, give the word back: extraction loses nothing but alpha |
| FrameAnalysis.UnpackPack | cameraheartratesdk/src/main/java/com/azure/cameraheartratesdk/manager/HeartRateAnalyzer.java:203-206 | decoding a packed ARGB word gives back its colour channels |
| FrameAnalysis.RegionStart | cameraheartratesdk/src/main/java/com/azure/cameraheartratesdk/manager/HeartRateAnalyzer.java:193-196 | the quarter-length region fits in the axis, and for an axis of at least 4 the half-open region [start, start + n/4) contains the midpoint n/2 |
| FrameAnalysis.RegionCounts | cameraheartratesdk/src/main/java/com/azure/cameraheartratesdk/manager/HeartRateAnalyzer.java:191-211 | the first counter is the number of red-dominant pixels in the (h/4)-row, (w/4)-column block starting at `RegionStart` on each axis; the second is (h/4)·(w/4) |
| FrameAnalysis.CountRedDominant | cameraheartratesdk/src/main/java/com/azure/cameraheartratesdk/manager/HeartRateAnalyzer.java:200-210 | a row counts zero exactly when none of its pixels has red above both green and blue, and counts its full length exactly when all do |
| FrameAnalysis.IsFingerCoveringCamera | cameraheartratesdk/src/main/java/com/azure/cameraheartratesdk/manager/HeartRateAnalyzer.java:192-218 | covered iff the red-dominant ratio of the centre region exceeds 0.8; an empty region (NaN ratio) is never covered |
| FrameAnalysis.RatioAboveFourFifths | cameraheartratesdk/src/main/java/com/azure/cameraheartratesdk/manager/HeartRateAnalyzer.java:215-217 | ratio > 0.8 iff 5·red > 4·total |
| FrameAnalysis.AllRedFrameIsCovered | cameraheartratesdk/src/main/java/com/azure/cameraheartratesdk/manager/HeartRateAnalyzer.java:192-218 | a frame of at least 4×4 red-dominant pixels counts as covered |
| FrameAnalysis.NoRedFrameIsNotCovered | cameraheartratesdk/src/main/java/com/azure/cameraheartratesdk/manager/HeartRateAnalyzer.java:192-218 | a frame with no red-dominant pixel never counts as covered |
| FrameAnalysis.Stride | cameraheartratesdk/src/main/java/com/azure/cameraheartratesdk/manager/HeartRateAnalyzer.java:93-94 | stepping by 10 visits ceil(n/10) positions, the k-th at 10k |
| FrameAnalysis.SampledPixels | cameraheartratesdk/src/main/java/com/azure/cameraheartratesdk/manager/HeartRateAnalyzer.java:93-95 | the sampled grid has ceil(h/10) rows of ceil(w/10) pixels, and entry (y, x) is the frame pixel at row 10y, column 10x, which lies inside the frame |
| FrameAnalysis.SampleCount | cameraheartratesdk/src/main/java/com/azure/cameraheartratesdk/manager/HeartRateAnalyzer.java:93-98 | `pixelCount` is ceil(h/10)·ceil(w/10) |
| FrameAnalysis.GridRedSum | cameraheartratesdk/src/main/java/com/azure/cameraheartratesdk/manager/HeartRateAnalyzer.java:96-97 | `redSum` is at most 255 per sampled pixel |
| FrameAnalysis.MeanRed | cameraheartratesdk/src/main/java/com/azure/cameraheartratesdk/manager/HeartRateAnalyzer.java:102 | the average lies in [0, 255], is 0 with no pixels, and times the count gives the sum |
| FrameAnalysis.AverageRedIntensity | cameraheartratesdk/src/main/java/com/azure/cameraheartratesdk/manager/HeartRateAnalyzer.java:89-103 | the intensity lies in [0, 255] and is the mean red of the sampled grid |
| FrameAnalysis.UniformFrameAverage | cameraheartratesdk/src/main/java/com/azure/cameraheartratesdk/manager/HeartRateAnalyzer.java:89-103 | a frame whose pixels all have red value v has intensity v |
| Analyzer.Fresh | cameraheartratesdk/src/main/java/com/azure/cameraheartratesdk/manager/HeartRateAnalyzer.java:27-35 | a new analyzer has empty buffers, history and listeners, and satisfies the state invariant |
| Analyzer.AddListener | cameraheartratesdk/src/main/java/com/azure/cameraheartratesdk/manager/HeartRateAnalyzer.java:220-222 | the listener joins the set; nothing else changes |
| Analyzer.RemoveListener | cameraheartratesdk/src/main/java/com/azure/cameraheartratesdk/manager/HeartRateAnalyzer.java:224-226 | the listener leaves the set; nothing else changes |
| Analyzer.Broadcast | cameraheartratesdk/src/main/java/com/azure/cameraheartratesdk/manager/HeartRateAnalyzer.java:54-59 | exactly one notification, carrying the given values, per listener in the snapshot |
| Analyzer.RunPipeline | cameraheartratesdk/src/main/java/com/azure/cameraheartratesdk/manager/HeartRateAnalyzer.java:69-72 | the new history is the window's intervals appended with capacity 10; the rate is `calculateHeartRate` of that history filtered with threshold 0.3; it is 0 exactly when the filter leaves nothing, and otherwise within [42, 200] |
| Analyzer.Analyze | cameraheartratesdk/src/main/java/com/azure/cameraheartratesdk/manager/HeartRateAnalyzer.java:39-87 | rate-limited or undecodable frames change nothing; without a finger every listener gets (0, false) and the history is cleared iff there is a listener; with a finger the sample is buffered and the time stamp advances; the 31st sample empties the buffers, replaces the history by the pipeline's history and broadcasts (rate of the pipeline, true); listeners never change |
| Analyzer.AnalyzePreservesValid | cameraheartratesdk/src/main/java/com/azure/cameraheartratesdk/manager/HeartRateAnalyzer.java:39-87 | every step keeps the buffers aligned and at most 30 long, time stamps at least 100 ms apart, intensities in [0, 255], and the history at most 14 intervals of at least 200 ms |
| Analyzer.HistoryStaysValid | cameraheartratesdk/src/main/java/com/azure/cameraheartratesdk/manager/HeartRateAnalyzer.java:68-70 | one window adds at most 14 intervals of at least 200 ms each, so the history stays within those bounds |
| Analyzer.ReportedRatesPlausible | cameraheartratesdk/src/main/java/com/azure/cameraheartratesdk/manager/HeartRateAnalyzer.java:52-78 | every notification goes to a registered listener, reports 0 or a rate in [42, 200], and reports 0 whenever the finger is absent |
| CameraHeartRateManager.Init | cameraheartratesdk/src/main/java/com/azure/cameraheartratesdk/manager/CameraHeartRateManager.java:30-32 | `init` installs an analyzer with no listeners, empty buffers and empty history |
| CameraHeartRateManager.UnInit | cameraheartratesdk/src/main/java/com/azure/cameraheartratesdk/manager/CameraHeartRateManager.java:37-39 | `unInit` leaves no analyzer |
| CameraHeartRateManager.AddCameraHeartRateListener | cameraheartratesdk/src/main/java/com/azure/cameraheartratesdk/manager/CameraHeartRateManager.java:44-48 | a no-op without an analyzer; otherwise only the listener set grows by the listener |
| CameraHeartRateManager.RemoveCameraHeartRateListener | cameraheartratesdk/src/main/java/com/azure/cameraheartratesdk/manager/CameraHeartRateManager.java:53-57 | a no-op without an analyzer; otherwise only the listener leaves the set |
| CameraHeartRateManager.AnalyzeImage | cameraheartratesdk/src/main/java/com/azure/cameraheartratesdk/manager/CameraHeartRateManager.java:62-66 | a no-op without an analyzer; otherwise exactly one analyzer step, keeping the listeners and the invariant |
| CameraHeartRateManager.Run | cameraheartratesdk/src/main/java/com/azure/cameraheartratesdk/manager/CameraHeartRateManager.java:30-66 | any sequence of calls keeps the invariant and yields one set of callbacks per call |
| CameraHeartRateManager.AddIdempotent | cameraheartratesdk/src/main/java/com/azure/cameraheartratesdk/manager/CameraHeartRateManager.java:44-48 | adding the same listener twice is the same as adding it once |
| CameraHeartRateManager.RemoveOnlyThatListener | cameraheartratesdk/src/main/java/com/azure/cameraheartratesdk/manager/CameraHeartRateManager.java:53-57 | removal takes out the listener and leaves every other one as it was |
| CameraHeartRateManager.UninitialisedIgnoresCalls | cameraheartratesdk/src/main/java/com/azure/cameraheartratesdk/manager/CameraHeartRateManager.java:44-66 | without `init`, no call changes the manager or reaches a listener |
| CameraHeartRateManager.UnInitSilencesUntilInit | cameraheartratesdk/src/main/java/com/azure/cameraheartratesdk/manager/CameraHeartRateManager.java:37-66 | after `unInit`, nothing reaches a listener until the next `init` |
| CameraHeartRateManager.InitForgetsEarlierState | cameraheartratesdk/src/main/java/com/azure/cameraheartratesdk/manager/CameraHeartRateManager.java:30-32 | what follows `init` is independent of the manager's earlier state |
| Scenarios.SortExample | cameraheartratesdk/src/main/java/com/azure/cameraheartratesdk/manager/HeartRateAnalyzer.java:337-338 | sorting [1000, 700, 1000] gives [700, 1000, 1000] |
| Scenarios.FilterKeepsLargeJumps | cameraheartratesdk/src/main/java/com/azure/cameraheartratesdk/manager/HeartRateAnalyzer.java:303-318 | [1000, 700, 1000] passes the 0.3 filter unchanged, although its changes are 30% and 43% |
| Scenarios.SteadyOneSecondIsSixty | cameraheartratesdk/src/main/java/com/azure/cameraheartratesdk/manager/HeartRateAnalyzer.java:118-131 | three 1000 ms intervals give 60 bpm |
| Scenarios.OversizedBatchReplacesHistory | cameraheartratesdk/src/main/java/com/azure/cameraheartratesdk/manager/HeartRateAnalyzer.java:241-262 | a batch of 11 intervals with capacity 10 evicts the whole old history and is kept whole |

## Left out

- `yuvToRgb` and `yuv420ToNv21`: JPEG encoding and decoding of camera planes is platform code. The model receives the decoded bitmap, or `None` when decoding failed.
- Logging, `image.close()` and the clock: these are I/O. The time is the parameter `now`.
- Listener callbacks as method calls: a callback is a `Notification` value. Their order is a set, because `HashSet` iteration order is unspecified. The snapshot copy `cloneHeartRateListenerSet` is implicit, because the model's sets are immutable.
- `getInstance` and its double-checked locking: concurrency. The manager is a value, and `Uninitialised` is the state straight after construction.
- `isNormalRange`, `lastHeartRate`, `heartRateSmooth` and the commented-out SDNN and RMSSD: the code never uses them.
- Floating point: intensities, window sums and means are exact reals, and the heart-rate quotient is exact integer arithmetic. Java sums each smoothing window in `double`, and `findPeaks` compares the results strictly, so rounding can create or remove a peak and change the intervals. For the intensities 583904, 613139, 672203, 588254, 639364, 613139, 632775 and 633203, each divided by 3072, the exact smoothed values 3 and 4 are equal and the model finds peaks [1, 6]. In doubles they are 204.50520833333334 and 204.50520833333331, so Java finds [1, 3, 6].
- PeakDetection.SmoothStaysInBounds: holds for exact-real smoothing only. In doubles, a flat signal of 0.1 smooths to (0.1 + 0.1 + 0.1) / 3 = 0.10000000000000002, which is above the input's maximum.
- PeakDetection.SmoothFlatSignal: holds for exact-real smoothing only. In doubles, that same flat signal of 0.1 is not left unchanged, and its smoothed copy has a peak.
- HeartRate.CalculateHeartRate: computes `60000·n / total` exactly and truncates. Java divides in `double` and can land just below a whole number. For the in-range intervals `[550, 545, 545, 545, 545, 545, 545, 545, 545, 545, 545]` (11 intervals, 6000 ms), `averageDuration` is 545.4545454545455, `60000 / averageDuration` is 109.99999999999999, and Java reports 109 where the model gives 110. For eleven intervals totalling 12000 ms, Java gives 54 and the model 55. The model states the exact-arithmetic rate.
- `long` wrap-around: time stamps and intervals are unbounded integers. A 64-bit overflow needs time stamps about 2^63 ms apart.
- `smoothData` with a window size other than 5: the only call passes 5, so the window is fixed at `[i − 2, i + 2)`.
- `filterRRByChange` with a threshold of 1 or more: `RRFilter.PassMask` states its verdicts for thresholds below 1, which includes the 0.3 the analyzer uses. The function itself is modelled for every threshold.
- `CameraHeartRateListener` and the demo `MainActivity`: an interface and an application, with no logic of their own.
- Analyzer.HistoryStaysValid: it assumes the history holds at most 14 intervals beforehand, which is the invariant `Analyzer.Valid`. The Java method accepts any history.

=== FILE: analyzer.dfy ===
/** One call of `HeartRateAnalyzer.analyze` as a step function over the
    analyzer's fields, plus its listener registration. The clock reading
    `System.currentTimeMillis()` is the parameter `now`; the decoded bitmap
    is an optional frame (`None` when decoding failed). */
module Analyzer {
  import opened Wrappers
  import opened RRFilter
  import opened RRHistory
  import opened PeakDetection
  import opened HeartRate
  import opened FrameAnalysis

  /** Frames closer than this (ms) to the last analysed one are skipped. */
  const MinFrameInterval := 100
  /** Samples buffered before the pipeline runs on the 31st one. */
  const WindowCapacity := 30
  /** The change threshold passed to the deviation filter. */
  const ChangeThreshold: real := 0.3
  /** The largest batch one 31-sample window can yield: at most 15 peaks
      fit in it, two apart, so at most 14 intervals. */
  const MaxBatch := 14

  /** An opaque listener handle; the analyzer only stores and compares them. */
  datatype Listener = Listener(id: nat)

  /** One listener receiving `onHeartRate(heartRate)` then
      `onFingerDetected(fingerDetected)`. */
  datatype Notification = Notification(listener: Listener, heartRate: int, fingerDetected: bool)

  datatype State = State(
    lastAnalyzedTimestamp: int,
    frameTimestamps: seq<int>,
    redIntensity: seq<real>,
    rrList: seq<int>,
    listeners: set<Listener>)

  datatype Step = Step(state: State, notifications: set<Notification>)

  /** A newly constructed analyzer (field initialisers, lines 27-35). */
  function Fresh(): (s: State)
    ensures Valid(s)
    ensures s.listeners == {} && s.rrList == [] && s.lastAnalyzedTimestamp == 0
    ensures s.frameTimestamps == [] && s.redIntensity == []
  {
    State(0, [], [], [], {})
  }

  /** What holds of every state reachable from `Fresh` by `Analyze` and the
      listener operations. */
  predicate Valid(s: State)
  {
    && |s.frameTimestamps| == |s.redIntensity| <= WindowCapacity
    && Spaced(s.frameTimestamps, MinFrameInterval)
    && (|s.frameTimestamps| > 0 ==> s.frameTimestamps[|s.frameTimestamps| - 1] <= s.lastAnalyzedTimestamp)
    && (forall k :: 0 <= k < |s.redIntensity| ==> 0.0 <= s.redIntensity[k] <= 255.0)
    && |s.rrList| <= MaxBatch
    && (forall k :: 0 <= k < |s.rrList| ==> s.rrList[k] >= 2 * MinFrameInterval)
  }

  /** `addHeartRateListener`: set insertion. */
  function AddListener(s: State, l: Listener): (s': State)
    ensures s'.listeners == s.listeners + {l}
    ensures s' == s.(listeners := s'.listeners)
  {
    s.(listeners := s.listeners + {l})
  }

  /** `removeHeartRateListener`: set removal. */
  function RemoveListener(s: State, l: Listener): (s': State)
    ensures s'.listeners == s.listeners - {l}
    ensures s' == s.(listeners := s'.listeners)
  {
    s.(listeners := s.listeners - {l})
  }

  /** One callback pair for every listener of a snapshot of the set. */
  function Broadcast(listeners: set<Listener>, heartRate: int, fingerDetected: bool): (ns: set<Notification>)
    ensures forall n :: n in ns <==>
      n.listener in listeners && n.heartRate == heartRate && n.fingerDetected == fingerDetected
    ensures |ns| == |listeners|
  {
    var ns := set l | l in listeners :: Notification(l, heartRate, fingerDetected);
    BroadcastSize(listeners, heartRate, fingerDetected);
    ns
  }

  lemma {:induction false} BroadcastSize(listeners: set<Listener>, heartRate: int, fingerDetected: bool)
    ensures |set l | l in listeners :: Notification(l, heartRate, fingerDetected)| == |listeners|
    decreases |listeners|
  {
    var ns := set l | l in listeners :: Notification(l, heartRate, fingerDetected);
    if listeners != {} {
      var l :| l in listeners;
      var rest := listeners - {l};
      BroadcastSize(rest, heartRate, fingerDetected);
      var restNs := set m | m in rest :: Notification(m, heartRate, fingerDetected);
      assert ns == restNs + {Notification(l, heartRate, fingerDetected)};
    }
  }

  /** The pipeline run on a full window (lines 69-72): intervals from the
      window's peaks, appended to the history of capacity 10, filtered, turned
      into a rate. Returns the new history and the rate. */
  function RunPipeline(timestamps: seq<int>, intensities: seq<real>, rrList: seq<int>): (out: (seq<int>, int))
    requires |timestamps| == |intensities|
    ensures out.0 == AddRRElements(rrList, CalculateRR(timestamps, intensities), HistoryCapacity)
    ensures out.1 == CalculateHeartRate(FilterRRByChange(Some(out.0), ChangeThreshold))
    ensures out.1 == 0 || 42 <= out.1 <= 200
    ensures out.1 == 0 <==> FilterRRByChange(Some(out.0), ChangeThreshold).value == []
  {
    var history := AddRRElements(rrList, CalculateRR(timestamps, intensities), HistoryCapacity);
    var filtered := FilterRRByChange(Some(history), ChangeThreshold);
    var hr := CalculateHeartRate(filtered);
    if |filtered.value| > 0 then
      RateOfPlausibleIntervals(filtered.value);
      (history, hr)
    else
      (history, hr)
  }

  /** The frame passes the rate limit (line 42) and decoded (line 45). */
  predicate Processed(s: State, now: int, frame: Option<Frame>)
  {
    now - s.lastAnalyzedTimestamp >= MinFrameInterval && frame.Some?
  }

  /** `analyze(image)` at time `now`. */
  function Analyze(s: State, now: int, frame: Option<Frame>): (step: Step)
    requires |s.frameTimestamps| == |s.redIntensity|
    ensures |step.state.frameTimestamps| == |step.state.redIntensity|
    ensures step.state.listeners == s.listeners
    // Rate limit, and a frame that did not decode: nothing happens.
    ensures !Processed(s, now, frame) ==> step == Step(s, {})
    // No finger: every listener is told (0, false); the history is cleared
    // only when there was a listener to tell; the buffers and the time stamp stay.
    ensures Processed(s, now, frame) && !IsFingerCoveringCamera(frame.value) ==>
      && step.notifications == Broadcast(s.listeners, 0, false)
      && step.state == s.(rrList := if s.listeners == {} then s.rrList else [])
    // Finger present: the sample is recorded and the time stamp advances.
    ensures Processed(s, now, frame) && IsFingerCoveringCamera(frame.value) ==>
      && step.state.lastAnalyzedTimestamp == now
      && (|s.frameTimestamps| < WindowCapacity ==>
          && step.notifications == {}
          && step.state.frameTimestamps == s.frameTimestamps + [now]
          && step.state.redIntensity == s.redIntensity + [AverageRedIntensity(frame.value)]
          && step.state.rrList == s.rrList)
      && (|s.frameTimestamps| >= WindowCapacity ==>
          && step.state.frameTimestamps == []
          && step.state.redIntensity == []
          && var (history, hr) := RunPipeline(s.frameTimestamps + [now],
               s.redIntensity + [AverageRedIntensity(frame.value)], s.rrList);
             step.state.rrList == history && step.notifications == Broadcast(s.listeners, hr, true))
  {
    if now - s.lastAnalyzedTimestamp < MinFrameInterval then Step(s, {})
    else match frame
      case None => Step(s, {})
      case Some(f) =>
        if !IsFingerCoveringCamera(f) then
          var cleared := if s.listeners == {} then s.rrList else [];
          Step(s.(rrList := cleared), Broadcast(s.listeners, 0, false))
        else
          var timestamps := s.frameTimestamps + [now];
          var intensities := s.redIntensity + [AverageRedIntensity(f)];
          if |timestamps| > WindowCapacity then
            var (history, hr) := RunPipeline(timestamps, intensities, s.rrList);
            Step(State(now, [], [], history, s.listeners), Broadcast(s.listeners, hr, true))
          else
            Step(State(now, timestamps, intensities, s.rrList, s.listeners), {})
  }

  /** Every step keeps the buffers aligned and at most 30 long, buffered time
      stamps at least 100 ms apart, intensities in [0, 255], and the history
      at most 14 intervals of at least 200 ms each. */
  lemma AnalyzePreservesValid(s: State, now: int, frame: Option<Frame>)
    requires Valid(s)
    ensures Valid(Analyze(s, now, frame).state)
  {
    if Processed(s, now, frame) && IsFingerCoveringCamera(frame.value) {
      var avg := AverageRedIntensity(frame.value);
      var timestamps := s.frameTimestamps + [now];
      var intensities := s.redIntensity + [avg];
      SampleAppendStaysValid(s, now, avg);
      if |timestamps| > WindowCapacity {
        HistoryStaysValid(s.rrList, timestamps, intensities);
      }
    }
  }

  /** A sample taken at least 100 ms after the last analysed frame keeps the
      buffers spaced and in range. */
  lemma SampleAppendStaysValid(s: State, now: int, avg: real)
    requires Valid(s)
    requires now - s.lastAnalyzedTimestamp >= MinFrameInterval
    requires 0.0 <= avg <= 255.0
    ensures Spaced(s.frameTimestamps + [now], MinFrameInterval)
    ensures forall k :: 0 <= k < |s.redIntensity| + 1 ==> 0.0 <= (s.redIntensity + [avg])[k] <= 255.0
  {
    var timestamps := s.frameTimestamps + [now];
    forall k | 0 < k < |timestamps| ensures timestamps[k - 1] + MinFrameInterval <= timestamps[k] {
      if k < |s.frameTimestamps| {
        assert timestamps[k - 1] == s.frameTimestamps[k - 1] && timestamps[k] == s.frameTimestamps[k];
      }
    }
  }

  /** Appending a full window's intervals keeps the history short and every
      interval at least 200 ms. */
  lemma HistoryStaysValid(rrList: seq<int>, timestamps: seq<int>, intensities: seq<real>)
    requires |timestamps| == |intensities| == WindowCapacity + 1
    requires Spaced(timestamps, MinFrameInterval)
    requires |rrList| <= MaxBatch
    requires forall k :: 0 <= k < |rrList| ==> rrList[k] >= 2 * MinFrameInterval
    ensures var history := AddRRElements(rrList, CalculateRR(timestamps, intensities), HistoryCapacity);
      && |history| <= MaxBatch
      && forall k :: 0 <= k < |history| ==> history[k] >= 2 * MinFrameInterval
  {
    var batch := CalculateRR(timestamps, intensities);
    IntervalsAtLeastTwoGaps(timestamps, intensities, MinFrameInterval);
    var history := AddRRElements(rrList, batch, HistoryCapacity);
    if batch.Some? {
      var b := batch.value;
      var kept := |history| - |b|;
      forall k | 0 <= k < |history| ensures history[k] >= 2 * MinFrameInterval {
        if k < kept {
          assert history[k] == history[..kept][k] == rrList[|rrList| - kept + k];
        } else {
          assert history[k] == history[kept..][k - kept] == b[k - kept];
        }
      }
    }
  }

  /** Every heart rate reported is 0 or within [42, 200] bpm, and finger-absent
      reports are always 0. */
  lemma ReportedRatesPlausible(s: State, now: int, frame: Option<Frame>)
    requires |s.frameTimestamps| == |s.redIntensity|
    ensures forall n :: n in Analyze(s, now, frame).notifications ==>
      n.listener in s.listeners
      && (n.heartRate == 0 || 42 <= n.heartRate <= 200)
      && (!n.fingerDetected ==> n.heartRate == 0)
  {
  }
}

=== FILE: frame_analysis.dfy ===
/** Per-frame reductions over a decoded bitmap: `isFingerCoveringCamera` and
    `calculateAverageRedIntensity` (HeartRateAnalyzer.java). */
module FrameAnalysis {

  /** An 8-bit colour channel. */
  type Channel = x: int | 0 <= x <= 255

  /** The three channels the analyzer reads from a pixel. */
  datatype Pixel = Pixel(red: Channel, green: Channel, blue: Channel)

  /** The analyzer's channel extraction from a packed 0xAARRGGBB word.
      Re-packing the three channels under the word's own alpha byte gives
      the word back, so nothing but the alpha is discarded. */
  function Unpack(argb: bv32): (p: Pixel)
    ensures Pack((argb >> 24) as bv8, p.red as bv8, p.green as bv8, p.blue as bv8) == argb
  {
    var red := ((argb >> 16) & 0xFF) as bv8;
    var green := ((argb >> 8) & 0xFF) as bv8;
    var blue := (argb & 0xFF) as bv8;
    PackOfFields(argb);
    ByteRoundTrip(red);
    ByteRoundTrip(green);
    ByteRoundTrip(blue);
    Pixel(red as int, green as int, blue as int)
  }

  lemma PackOfFields(argb: bv32)
    ensures Pack((argb >> 24) as bv8, ((argb >> 16) & 0xFF) as bv8, ((argb >> 8) & 0xFF) as bv8, (argb & 0xFF) as bv8) == argb
  {
  }

  lemma ByteRoundTrip(x: bv8)
    ensures 0 <= x as int <= 255 && (x as int) as bv8 == x
  {
  }

  /** The 0xAARRGGBB packing of `Bitmap.getPixel`, from four 8-bit fields.
      Shifting and masking recovers each colour byte. */
  function Pack(alpha: bv8, red: bv8, green: bv8, blue: bv8): (argb: bv32)
    ensures (argb >> 16) & 0xFF == red as bv32
    ensures (argb >> 8) & 0xFF == green as bv32
    ensures argb & 0xFF == blue as bv32
  {
    ((alpha as bv32) << 24) | ((red as bv32) << 16) | ((green as bv32) << 8) | (blue as bv32)
  }

  /** Channel extraction recovers every packed channel, whatever the alpha. */
  lemma UnpackPack(alpha: bv8, red: bv8, green: bv8, blue: bv8)
    ensures Unpack(Pack(alpha, red, green, blue)) == Pixel(red as int, green as int, blue as int)
  {
  }

  /** A pixel whose red channel strictly exceeds both others. */
  predicate RedDominant(p: Pixel)
  {
    p.red > p.green && p.red > p.blue
  }

  datatype Bitmap = Bitmap(width: nat, height: nat, rows: seq<seq<Pixel>>)

  /** A decoded frame: `height` rows of `width` pixels each; `getPixel(x, y)`
      is `rows[y][x]`. */
  type Frame = b: Bitmap | |b.rows| == b.height && forall y :: 0 <= y < |b.rows| ==> |b.rows[y]| == b.width
    witness Bitmap(0, 0, [])

  /** Start of the centred region of interest along one axis of length `n`:
      half the region's length before the midpoint. The region, a quarter of
      the axis long, lies inside the axis and covers its midpoint. */
  function RegionStart(n: nat): (start: nat)
    ensures start + n / 4 <= n
    ensures start <= n / 2 <= start + n / 4
    ensures n >= 4 ==> start <= n / 2 < start + n / 4
  {
    n / 2 - (n / 4) / 2
  }

  /** Red-dominant pixels in one row: none exactly when no pixel is
      red-dominant, all exactly when every pixel is. */
  function CountRedDominant(row: seq<Pixel>): (c: nat)
    ensures c <= |row|
    ensures c == 0 <==> forall x :: 0 <= x < |row| ==> !RedDominant(row[x])
    ensures c == |row| <==> forall x :: 0 <= x < |row| ==> RedDominant(row[x])
  {
    if |row| == 0 then 0
    else
      var init := row[..|row| - 1];
      assert forall x :: 0 <= x < |init| ==> init[x] == row[x];
      CountRedDominant(init) + (if RedDominant(row[|row| - 1]) then 1 else 0)
  }

  /** Red-dominant pixels in columns [x0, x1) of the given rows. */
  function CountRedDominantIn(rows: seq<seq<Pixel>>, x0: nat, x1: nat): (c: nat)
    requires x0 <= x1
    requires forall y :: 0 <= y < |rows| ==> x1 <= |rows[y]|
    ensures c <= |rows| * (x1 - x0)
  {
    if |rows| == 0 then 0
    else
      var init, last := rows[..|rows| - 1], rows[|rows| - 1];
      assert forall y :: 0 <= y < |init| ==> init[y] == rows[y];
      var c := CountRedDominantIn(init, x0, x1) + CountRedDominant(last[x0..x1]);
      RowsTimesWidth(|rows|, x1 - x0);
      c
  }

  lemma RowsTimesWidth(n: nat, w: nat)
    requires n > 0
    ensures (n - 1) * w + w == n * w
  {
  }

  /** The rows of the region of interest: `height / 4` full-width rows from
      `RegionStart(height)` on. */
  function RegionRows(f: Frame): (rows: seq<seq<Pixel>>)
    ensures |rows| == f.height / 4
    ensures forall y :: 0 <= y < |rows| ==> rows[y] == f.rows[RegionStart(f.height) + y]
    ensures forall y :: 0 <= y < |rows| ==> |rows[y]| == f.width
  {
    var y0 := RegionStart(f.height);
    f.rows[y0..y0 + f.height / 4]
  }

  /** The two counters of the region-of-interest loop: red-dominant pixels of
      the block at (`RegionStart(width)`, `RegionStart(height)`), and all
      pixels visited. */
  function RegionCounts(f: Frame): (counts: (nat, nat))
    ensures counts.0 <= counts.1
    ensures counts.1 == (f.height / 4) * (f.width / 4)
    ensures var x0 := RegionStart(f.width);
      counts.0 == CountRedDominantIn(RegionRows(f), x0, x0 + f.width / 4)
  {
    var w := f.width / 4;
    var x0 := RegionStart(f.width);
    var red := CountRedDominantIn(RegionRows(f), x0, x0 + w);
    (red, (f.height / 4) * w)
  }

  /** `isFingerCoveringCamera`: more than 80% of the central block, a quarter
      of the width by a quarter of the height, is red-dominant. An empty
      region gives the ratio 0/0, NaN, which compares false, so frames
      narrower or shorter than 4 pixels never count. The `double` ratio
      test is decided exactly by integer cross-multiplication. */
  function IsFingerCoveringCamera(f: Frame): (covered: bool)
    ensures var (red, total) := RegionCounts(f);
      covered <==> total > 0 && (red as real) / (total as real) > 0.8
    ensures covered ==> f.width >= 4 && f.height >= 4
  {
    var (red, total) := RegionCounts(f);
    if total == 0 then false
    else
      RatioAboveFourFifths(red, total);
      5 * red > 4 * total
  }

  lemma RatioAboveFourFifths(red: nat, total: nat)
    requires total > 0
    ensures (red as real) / (total as real) > 0.8 <==> 5 * red > 4 * total
  {
    var t := total as real;
    var r := (red as real) / t;
    assert r * t == red as real;
    ScaleByPositive(r, 0.8, t);
    assert 0.8 * t == (4 * total) as real / 5.0;
    assert (5 * red) as real == 5.0 * (red as real);
    assert (4 * total) as real == 5.0 * (0.8 * t);
  }

  /** Multiplying by a positive factor preserves strict order, both ways. */
  lemma ScaleByPositive(x: real, y: real, t: real)
    requires t > 0.0
    ensures x > y <==> x * t > y * t
  {
    assert x * t - y * t == (x - y) * t;
  }

  /** Every tenth element, starting with the first: the `+= 10` loops. */
  function Stride<T>(s: seq<T>): (r: seq<T>)
    ensures |r| == (|s| + 9) / 10
    ensures forall k :: 0 <= k < |r| ==> 10 * k < |s| && r[k] == s[10 * k]
    decreases |s|
  {
    if |s| == 0 then []
    else if |s| <= 10 then [s[0]]
    else [s[0]] + Stride(s[10..])
  }

  /** The pixels `calculateAverageRedIntensity` visits: every tenth column of
      every tenth row. */
  function SampledPixels(f: Frame): (grid: seq<seq<Pixel>>)
    ensures |grid| == (f.height + 9) / 10
    ensures forall y :: 0 <= y < |grid| ==> |grid[y]| == (f.width + 9) / 10
    ensures forall y, x :: 0 <= y < |grid| && 0 <= x < |grid[y]| ==>
      10 * y < f.height && 10 * x < f.width && grid[y][x] == f.rows[10 * y][10 * x]
  {
    var rows := Stride(f.rows);
    var grid := seq(|rows|, y requires 0 <= y < |rows| => Stride(rows[y]));
    forall y, x | 0 <= y < |grid| && 0 <= x < |grid[y]|
      ensures 10 * y < f.height && 10 * x < f.width && grid[y][x] == f.rows[10 * y][10 * x]
    {
      assert grid[y] == Stride(rows[y]);
      assert rows[y] == f.rows[10 * y];
    }
    grid
  }

  function RowRedSum(row: seq<Pixel>): (s: nat)
    ensures s <= 255 * |row|
  {
    if |row| == 0 then 0 else RowRedSum(row[..|row| - 1]) + row[|row| - 1].red
  }

  function GridSize(grid: seq<seq<Pixel>>): nat
  {
    if |grid| == 0 then 0 else GridSize(grid[..|grid| - 1]) + |grid[|grid| - 1]|
  }

  function GridRedSum(grid: seq<seq<Pixel>>): (s: nat)
    ensures s <= 255 * GridSize(grid)
  {
    if |grid| == 0 then 0 else GridRedSum(grid[..|grid| - 1]) + RowRedSum(grid[|grid| - 1])
  }

  lemma {:induction false} GridSizeOfRectangle(grid: seq<seq<Pixel>>, width: nat)
    requires forall y :: 0 <= y < |grid| ==> |grid[y]| == width
    ensures GridSize(grid) == |grid| * width
    decreases |grid|
  {
    if |grid| > 0 {
      GridSizeOfRectangle(grid[..|grid| - 1], width);
    }
  }

  /** The mean of `count` red values summing to `sum`, or 0 when nothing was
      sampled. */
  function MeanRed(sum: nat, count: nat): (avg: real)
    requires sum <= 255 * count
    ensures 0.0 <= avg <= 255.0
    ensures count == 0 ==> avg == 0.0
    ensures count > 0 ==> avg * (count as real) == sum as real
  {
    if count > 0 then
      var avg := (sum as real) / (count as real);
      assert avg * (count as real) == sum as real;
      assert (sum as real) <= 255.0 * (count as real);
      ScaleByPositive(avg, 255.0, count as real);
      ScaleByPositive(0.0, avg, count as real);
      avg
    else 0.0
  }

  /** The sampling loops visit ceil(w/10) * ceil(h/10) pixels. */
  lemma SampleCount(f: Frame)
    ensures GridSize(SampledPixels(f)) == ((f.height + 9) / 10) * ((f.width + 9) / 10)
  {
    var grid := SampledPixels(f);
    GridSizeOfRectangle(grid, (f.width + 9) / 10);
  }

  /** `calculateAverageRedIntensity`: the mean red value over the sampled
      pixels, or 0 when nothing is sampled. */
  function AverageRedIntensity(f: Frame): (avg: real)
    ensures 0.0 <= avg <= 255.0
    ensures avg == MeanRed(GridRedSum(SampledPixels(f)), GridSize(SampledPixels(f)))
  {
    var grid := SampledPixels(f);
    MeanRed(GridRedSum(grid), GridSize(grid))
  }

  /** A frame whose every pixel has red value `v` averages exactly `v`. */
  lemma UniformFrameAverage(f: Frame, v: Channel)
    requires forall y, x :: 0 <= y < |f.rows| && 0 <= x < |f.rows[y]| ==> f.rows[y][x].red == v
    requires f.width > 0 && f.height > 0
    ensures AverageRedIntensity(f) == v as real
  {
    var grid: seq<seq<Pixel>> := SampledPixels(f);
    var rows: seq<seq<Pixel>> := Stride(f.rows);
    assert forall y, x :: 0 <= y < |grid| && 0 <= x && x < |grid[y]| ==> grid[y][x].red == v by {
      forall y, x | 0 <= y < |grid| && 0 <= x < |grid[y]| ensures grid[y][x].red == v {
        assert grid[y] == Stride(rows[y]);
        assert rows[y] == f.rows[10 * y];
        assert grid[y][x] == rows[y][10 * x];
      }
    }
    UniformGridSum(grid, v);
    SampleCount(f);
    var count := GridSize(grid);
    MulPositive((f.height + 9) / 10, (f.width + 9) / 10);
    MeanOfUniform(v, count);
  }

  /** `count` samples all equal to `v` have mean `v`. */
  lemma MeanOfUniform(v: Channel, count: nat)
    requires count > 0
    ensures MeanRed(v * count, count) == v as real
  {
    var c := count as real;
    var avg := MeanRed(v * count, count);
    RealOfProduct(v, count);
    assert avg * c == (v as real) * c;
    ScaleByPositive(avg, v as real, c);
    ScaleByPositive(v as real, avg, c);
  }

  lemma RealOfProduct(a: int, b: int)
    ensures ((a * b) as real) == (a as real) * (b as real)
  {
  }

  lemma Distribute(v: int, a: int, b: int)
    ensures v * a + v * b == v * (a + b)
  {
  }

  lemma MulPositive(a: nat, b: nat)
    requires a > 0 && b > 0
    ensures a * b > 0
  {
  }

  lemma {:induction false} UniformGridSum(grid: seq<seq<Pixel>>, v: Channel)
    requires forall y, x :: 0 <= y < |grid| && 0 <= x < |grid[y]| ==> grid[y][x].red == v
    ensures GridRedSum(grid) == v * GridSize(grid)
    decreases |grid|
  {
    if |grid| > 0 {
      var init := grid[..|grid| - 1];
      var last := grid[|grid| - 1];
      assert forall y :: 0 <= y < |init| ==> init[y] == grid[y];
      UniformGridSum(init, v);
      UniformRowSum(last, v);
      assert GridRedSum(grid) == GridRedSum(init) + RowRedSum(last);
      assert GridSize(grid) == GridSize(init) + |last|;
      Distribute(v, GridSize(init), |last|);
    }
  }

  lemma {:induction false} UniformRowSum(row: seq<Pixel>, v: Channel)
    requires forall x :: 0 <= x < |row| ==> row[x].red == v
    ensures RowRedSum(row) == v * |row|
    decreases |row|
  {
    if |row| > 0 {
      UniformRowSum(row[..|row| - 1], v);
    }
  }

  /** A region made entirely of red-dominant pixels is a covering finger,
      provided the frame is large enough for the region to be non-empty. */
  lemma AllRedFrameIsCovered(f: Frame)
    requires forall y, x :: 0 <= y < |f.rows| && 0 <= x < |f.rows[y]| ==> RedDominant(f.rows[y][x])
    requires f.width >= 4 && f.height >= 4
    ensures IsFingerCoveringCamera(f)
  {
    var w := f.width / 4;
    var h := f.height / 4;
    var x0 := RegionStart(f.width);
    var rows := RegionRows(f);
    AllDominantCount(rows, x0, x0 + w);
    MulPositive(h, w);
    assert RegionCounts(f) == (h * w, h * w);
  }

  /** A region without a single red-dominant pixel is never a covering finger. */
  lemma NoRedFrameIsNotCovered(f: Frame)
    requires forall y, x :: 0 <= y < |f.rows| && 0 <= x < |f.rows[y]| ==> !RedDominant(f.rows[y][x])
    ensures !IsFingerCoveringCamera(f)
  {
    var w := f.width / 4;
    var x0 := RegionStart(f.width);
    var rows := RegionRows(f);
    NoDominantCount(rows, x0, x0 + w);
    assert RegionCounts(f).0 == 0;
  }

  /** A block of rows with no red-dominant pixel counts zero. */
  lemma {:induction false} NoDominantCount(rows: seq<seq<Pixel>>, x0: nat, x1: nat)
    requires x0 <= x1
    requires forall y :: 0 <= y < |rows| ==> x1 <= |rows[y]|
    requires forall y, x :: 0 <= y < |rows| && 0 <= x < |rows[y]| ==> !RedDominant(rows[y][x])
    ensures CountRedDominantIn(rows, x0, x1) == 0
    decreases |rows|
  {
    if |rows| > 0 {
      NoDominantCount(rows[..|rows| - 1], x0, x1);
      var last := rows[|rows| - 1];
      assert forall x :: 0 <= x < x1 - x0 ==> last[x0..x1][x] == last[x0 + x];
    }
  }

  lemma {:induction false} AllDominantCount(rows: seq<seq<Pixel>>, x0: nat, x1: nat)
    requires x0 <= x1
    requires forall y :: 0 <= y < |rows| ==> x1 <= |rows[y]|
    requires forall y, x :: 0 <= y < |rows| && 0 <= x < |rows[y]| ==> RedDominant(rows[y][x])
    ensures CountRedDominantIn(rows, x0, x1) == |rows| * (x1 - x0)
    decreases |rows|
  {
    if |rows| > 0 {
      var init := rows[..|rows| - 1];
      AllDominantCount(init, x0, x1);
      var last := rows[|rows| - 1];
      var block := last[x0..x1];
      assert forall x :: 0 <= x < |block| ==> block[x] == last[x0 + x];
      assert CountRedDominant(block) == x1 - x0;
      RowsTimesWidth(|rows|, x1 - x0);
    }
  }
}

=== FILE: heart_rate.dfy ===
/** `calculateHeartRate` (HeartRateAnalyzer.java): the mean R-R interval turned
    into beats per minute. The `double` mean and quotient are modelled exactly,
    as `60000 * n / sum`, followed by Java's `(int)` narrowing cast. */
module HeartRate {
  import opened Wrappers
  import opened RRFilter

  const MillisPerMinute := 60 * 1000
  const IntMax := 0x7FFF_FFFF
  const IntMin := -0x8000_0000

  function SumDurations(ds: seq<int>): int
  {
    if |ds| == 0 then 0 else SumDurations(ds[..|ds| - 1]) + ds[|ds| - 1]
  }

  /** Division that truncates toward zero, as Java's `(int)` cast of a quotient does. */
  function TruncDiv(a: int, b: int): int
    requires b != 0
  {
    if (a >= 0) == (b > 0) then Abs(a) / Abs(b) else -(Abs(a) / Abs(b))
  }

  /** `(int)` of a finite `double` saturates at the `int` range. */
  function SaturateInt(v: int): (r: int)
    ensures IntMin <= r <= IntMax
    ensures IntMin <= v <= IntMax ==> r == v
  {
    if v > IntMax then IntMax else if v < IntMin then IntMin else v
  }

  /** Beats per minute for `n` intervals summing to `total` ms: a minute
      divided by the mean interval, narrowed to `int`. A zero total divides
      by zero and gives +Infinity, which narrows to `Integer.MAX_VALUE`. */
  function RateFromTotal(n: nat, total: int): (bpm: int)
    requires n > 0
    ensures IntMin <= bpm <= IntMax
    ensures total > 0 ==>
      && 0 <= bpm
      && bpm * total <= MillisPerMinute * n
      && (bpm < IntMax ==> MillisPerMinute * n < (bpm + 1) * total)
  {
    if total == 0 then IntMax
    else
      var q := TruncDiv(MillisPerMinute * n, total);
      QuotientBracket(MillisPerMinute * n, total);
      SaturateInt(q)
  }

  /** For a positive divisor the truncated quotient is the largest multiple
      that does not exceed the dividend. */
  lemma QuotientBracket(a: nat, b: int)
    requires b != 0
    ensures b > 0 ==> TruncDiv(a, b) == a / b
    ensures b > 0 ==> 0 <= TruncDiv(a, b) && TruncDiv(a, b) * b <= a < (TruncDiv(a, b) + 1) * b
  {
  }

  /** `calculateHeartRate`: 0 for a `null` list, 0 for an empty one (the mean is
      NaN, which `(int)` turns into 0), `Integer.MAX_VALUE` when the intervals
      sum to 0 (the quotient is +Infinity), and otherwise 60000 divided by the
      mean interval, truncated. With a positive sum that is the largest `bpm`
      for which `bpm` intervals of the mean length fit in a minute. */
  function CalculateHeartRate(durations: Option<seq<int>>): (bpm: int)
    ensures IntMin <= bpm <= IntMax
    ensures durations.None? ==> bpm == 0
    ensures durations.Some? && |durations.value| == 0 ==> bpm == 0
    ensures durations.Some? && SumDurations(durations.value) > 0 ==>
      var n := |durations.value|;
      var total := SumDurations(durations.value);
      && 0 <= bpm
      && bpm * total <= MillisPerMinute * n
      && (bpm < IntMax ==> MillisPerMinute * n < (bpm + 1) * total)
  {
    match durations
    case None => 0
    case Some(ds) =>
      if |ds| == 0 then 0 else RateFromTotal(|ds|, SumDurations(ds))
  }

  lemma {:induction false} SumInRange(ds: seq<int>)
    requires AllInRange(ds)
    ensures RRMin * |ds| <= SumDurations(ds) <= RRMax * |ds|
    decreases |ds|
  {
    if |ds| > 0 {
      SumInRange(ds[..|ds| - 1]);
    }
  }

  /** Intervals that passed the range gate give a rate between 42 and 200 bpm:
      60000 / 1400 is 42.86 and 60000 / 300 is 200. */
  lemma RateOfPlausibleIntervals(ds: seq<int>)
    requires |ds| > 0 && AllInRange(ds)
    ensures 42 <= CalculateHeartRate(Some(ds)) <= 200
  {
    var n := |ds|;
    var a := MillisPerMinute * n;
    var total := SumDurations(ds);
    SumInRange(ds);
    QuotientBracket(a, total);
    var q := a / total;
    assert CalculateHeartRate(Some(ds)) == q;
    MulLe(42, RRMax * n, 42);
    assert 42 * total <= a;
    QuotientAtLeast(a, total, 42);
    assert a <= 200 * total;
    QuotientAtMost(a, total, 200);
  }

  lemma QuotientAtLeast(a: nat, b: nat, k: nat)
    requires b > 0 && k * b <= a
    ensures k <= a / b
  {
    var q := a / b;
    assert a < (q + 1) * b;
    if k > q {
      MulLe(q + 1, k, b);
    }
  }

  lemma QuotientAtMost(a: nat, b: nat, k: nat)
    requires b > 0 && a <= k * b
    ensures a / b <= k
  {
  }

  lemma MulLe(a: int, b: int, c: nat)
    requires a <= b
    ensures a * c <= b * c
  {
  }
}

=== FILE: manager.dfy ===
/** `CameraHeartRateManager`: holds at most one analyzer and forwards calls to
    it only while it holds one. */
module CameraHeartRateManager {
  import opened Wrappers
  import opened FrameAnalysis
  import opened Analyzer

  /** The `heartRateAnalyzer` field: `null`, or an analyzer. */
  datatype Manager = Uninitialised | Initialised(analyzer: State)

  /** What holds of every manager reachable from `Uninitialised`. */
  predicate Good(m: Manager)
  {
    m.Initialised? ==> Valid(m.analyzer)
  }

  /** `init`: installs a brand-new analyzer, discarding any earlier one with
      its listeners and buffers. */
  function Init(m: Manager): (m': Manager)
    ensures Good(m')
    ensures m'.Initialised?
    ensures m'.analyzer.listeners == {} && m'.analyzer.rrList == []
    ensures m'.analyzer.frameTimestamps == [] && m'.analyzer.redIntensity == []
    ensures m'.analyzer.lastAnalyzedTimestamp == 0
  {
    Initialised(Fresh())
  }

  /** `unInit`: drops the analyzer. */
  function UnInit(m: Manager): (m': Manager)
    ensures m'.Uninitialised?
  {
    Uninitialised
  }

  /** `addCameraHeartRateListener`: a no-op without an analyzer; otherwise the
      listener joins the set and nothing else changes. */
  function AddCameraHeartRateListener(m: Manager, l: Listener): (m': Manager)
    ensures m.Uninitialised? ==> m' == m
    ensures m.Initialised? ==>
      && m'.Initialised?
      && m'.analyzer.listeners == m.analyzer.listeners + {l}
      && m'.analyzer == m.analyzer.(listeners := m'.analyzer.listeners)
  {
    match m
    case Uninitialised => m
    case Initialised(a) => Initialised(AddListener(a, l))
  }

  /** `removeCameraHeartRateListener`: a no-op without an analyzer; otherwise
      only `l` leaves the set. */
  function RemoveCameraHeartRateListener(m: Manager, l: Listener): (m': Manager)
    ensures m.Uninitialised? ==> m' == m
    ensures m.Initialised? ==>
      && m'.Initialised?
      && m'.analyzer.listeners == m.analyzer.listeners - {l}
      && m'.analyzer == m.analyzer.(listeners := m'.analyzer.listeners)
  {
    match m
    case Uninitialised => m
    case Initialised(a) => Initialised(RemoveListener(a, l))
  }

  /** `analyzeImage`: without an analyzer the frame is ignored; otherwise
      exactly one analyzer step runs and the manager keeps that analyzer. */
  function AnalyzeImage(m: Manager, now: int, frame: Option<Frame>): (out: (Manager, set<Notification>))
    requires Good(m)
    ensures Good(out.0)
    ensures m.Uninitialised? ==> out == (m, {})
    ensures m.Initialised? ==>
      var step := Analyze(m.analyzer, now, frame);
      && out.0 == Initialised(step.state)
      && out.1 == step.notifications
      && out.0.analyzer.listeners == m.analyzer.listeners
  {
    match m
    case Uninitialised => (m, {})
    case Initialised(a) =>
      AnalyzePreservesValid(a, now, frame);
      var step := Analyze(a, now, frame);
      (Initialised(step.state), step.notifications)
  }

  /** Adding a listener twice is the same as adding it once. */
  lemma AddIdempotent(m: Manager, l: Listener)
    ensures AddCameraHeartRateListener(AddCameraHeartRateListener(m, l), l) == AddCameraHeartRateListener(m, l)
  {
  }

  /** Removal is by membership and touches no other listener. */
  lemma RemoveOnlyThatListener(m: Manager, l: Listener, other: Listener)
    requires m.Initialised? && other != l
    ensures other in RemoveCameraHeartRateListener(m, l).analyzer.listeners <==> other in m.analyzer.listeners
    ensures l !in RemoveCameraHeartRateListener(m, l).analyzer.listeners
  {
  }

  /** The calls an application makes into the manager. */
  datatype Call =
    | InitCall
    | UnInitCall
    | AddCall(listener: Listener)
    | RemoveCall(listener: Listener)
    | AnalyzeCall(now: int, frame: Option<Frame>)

  /** One call: the manager afterwards and the callbacks it caused. */
  function Apply(m: Manager, c: Call): (out: (Manager, set<Notification>))
    requires Good(m)
    ensures Good(out.0)
  {
    match c
    case InitCall => (Init(m), {})
    case UnInitCall => (UnInit(m), {})
    case AddCall(l) => (AddCameraHeartRateListener(m, l), {})
    case RemoveCall(l) => (RemoveCameraHeartRateListener(m, l), {})
    case AnalyzeCall(now, frame) => AnalyzeImage(m, now, frame)
  }

  /** A sequence of calls: the final manager and the callbacks of each call. */
  function Run(m: Manager, calls: seq<Call>): (out: (Manager, seq<set<Notification>>))
    requires Good(m)
    ensures Good(out.0)
    ensures |out.1| == |calls|
    decreases |calls|
  {
    if |calls| == 0 then (m, [])
    else
      var (m1, ns) := Apply(m, calls[0]);
      var (m2, rest) := Run(m1, calls[1..]);
      (m2, [ns] + rest)
  }

  /** Before `init`, and after `unInit` until the next `init`, no call changes
      anything or reaches a listener. */
  lemma {:induction false} UninitialisedIgnoresCalls(calls: seq<Call>)
    requires forall k :: 0 <= k < |calls| ==> !calls[k].InitCall?
    ensures Run(Uninitialised, calls).0 == Uninitialised
    ensures forall k :: 0 <= k < |calls| ==> Run(Uninitialised, calls).1[k] == {}
    decreases |calls|
  {
    if |calls| > 0 {
      UninitialisedIgnoresCalls(calls[1..]);
    }
  }

  /** After `unInit`, the same holds whatever the manager held before. */
  lemma UnInitSilencesUntilInit(m: Manager, calls: seq<Call>)
    requires Good(m)
    requires forall k :: 0 <= k < |calls| ==> !calls[k].InitCall?
    ensures Run(m, [UnInitCall] + calls).0 == Uninitialised
    ensures forall k :: 0 <= k <= |calls| ==> Run(m, [UnInitCall] + calls).1[k] == {}
  {
    assert ([UnInitCall] + calls)[1..] == calls;
    UninitialisedIgnoresCalls(calls);
  }

  /** What follows an `init` does not depend on anything before it. */
  lemma InitForgetsEarlierState(m1: Manager, m2: Manager, calls: seq<Call>)
    requires Good(m1) && Good(m2)
    ensures Run(m1, [InitCall] + calls) == Run(m2, [InitCall] + calls)
  {
    assert ([InitCall] + calls)[1..] == calls;
  }
}

=== FILE: peak_detection.dfy ===
/** Smoothing, peak picking and peak-to-interval conversion: `smoothData`,
    `findPeaks` and `calculateRR` (HeartRateAnalyzer.java). Intensities are
    Java `double`s, modelled as exact reals. */
module PeakDetection {
  import opened Wrappers

  /** The window size the only caller passes (line 106). */
  const SmoothingWindow := 5
  /** `windowSize / 2`: the window reaches this far on either side. */
  const HalfWindow := SmoothingWindow / 2

  function Sum(s: seq<real>): real
  {
    if |s| == 0 then 0.0 else Sum(s[..|s| - 1]) + s[|s| - 1]
  }

  function Mean(s: seq<real>): real
    requires |s| > 0
  {
    Sum(s) / (|s| as real)
  }

  /** First index of the smoothing window of sample `i`: two samples back,
      clamped at the start of the series. */
  function WindowStart(i: nat): nat
  {
    if i < HalfWindow then 0 else i - HalfWindow
  }

  /** Exclusive end of the smoothing window of sample `i`: two samples
      ahead, clamped at the end of the series. The window [i - 2, i + 2) is
      four wide and not centred on `i`. */
  function WindowEnd(n: nat, i: nat): nat
  {
    if n < i + HalfWindow then n else i + HalfWindow
  }

  /** `smoothData(intensities, 5)`: each value replaced by the mean of its
      clamped window. The window always holds the sample itself (so it is
      never empty), reaches two samples back, one forward, and no further. */
  function SmoothData(xs: seq<real>): (r: seq<real>)
    ensures |r| == |xs|
    ensures forall i :: 0 <= i < |xs| ==>
      && WindowStart(i) <= i < WindowEnd(|xs|, i) <= |xs|
      && WindowEnd(|xs|, i) - WindowStart(i) <= 4
      && (i + 1 < |xs| ==> i + 1 < WindowEnd(|xs|, i))
      && (i >= 2 ==> WindowStart(i) == i - 2)
      && r[i] == Mean(xs[WindowStart(i)..WindowEnd(|xs|, i)])
  {
    seq(|xs|, i requires 0 <= i < |xs| => Mean(xs[WindowStart(i)..WindowEnd(|xs|, i)]))
  }

  lemma {:induction false} SumBounds(s: seq<real>, lo: real, hi: real)
    requires forall k :: 0 <= k < |s| ==> lo <= s[k] <= hi
    ensures (|s| as real) * lo <= Sum(s) <= (|s| as real) * hi
    decreases |s|
  {
    if |s| > 0 {
      var init := s[..|s| - 1];
      SumBounds(init, lo, hi);
      var m := |init| as real;
      assert Sum(s) == Sum(init) + s[|s| - 1];
      assert lo <= s[|s| - 1] <= hi;
      assert (|s| as real) == m + 1.0;
      assert (m + 1.0) * lo == m * lo + lo;
      assert (m + 1.0) * hi == m * hi + hi;
    }
  }

  lemma MeanBounds(s: seq<real>, lo: real, hi: real)
    requires |s| > 0
    requires forall k :: 0 <= k < |s| ==> lo <= s[k] <= hi
    ensures lo <= Mean(s) <= hi
  {
    SumBounds(s, lo, hi);
    var n := |s| as real;
    assert Mean(s) * n == Sum(s);
  }

  /** Smoothing never leaves the range of its input: intensities in [0, 255]
      stay in [0, 255]. */
  lemma SmoothStaysInBounds(xs: seq<real>, lo: real, hi: real)
    requires forall k :: 0 <= k < |xs| ==> lo <= xs[k] <= hi
    ensures forall k :: 0 <= k < |xs| ==> lo <= SmoothData(xs)[k] <= hi
  {
    var r := SmoothData(xs);
    forall k | 0 <= k < |xs|
      ensures lo <= r[k] <= hi
    {
      var w := xs[WindowStart(k)..WindowEnd(|xs|, k)];
      assert forall j :: 0 <= j < |w| ==> w[j] == xs[WindowStart(k) + j];
      MeanBounds(w, lo, hi);
    }
  }

  /** A flat signal is a fixed point of smoothing. */
  lemma SmoothFlatSignal(xs: seq<real>, c: real)
    requires forall k :: 0 <= k < |xs| ==> xs[k] == c
    ensures SmoothData(xs) == xs
  {
    SmoothStaysInBounds(xs, c, c);
  }

  /** A strict local maximum at an interior index. */
  predicate IsPeak(xs: seq<real>, i: int)
  {
    1 <= i < |xs| - 1 && xs[i] > xs[i - 1] && xs[i] > xs[i + 1]
  }

  /** The peaks at or after `i`, ascending; two peaks are never adjacent. */
  function PeaksFrom(xs: seq<real>, i: nat): (r: seq<nat>)
    requires 1 <= i
    ensures forall k :: 0 <= k < |r| ==> i <= r[k] && IsPeak(xs, r[k])
    ensures forall k :: 0 < k < |r| ==> r[k - 1] + 2 <= r[k]
    ensures forall j :: i <= j && IsPeak(xs, j) ==> j in r
    decreases |xs| - i
  {
    if i + 1 >= |xs| then []
    else
      var rest := PeaksFrom(xs, i + 1);
      if IsPeak(xs, i) then
        assert |rest| > 0 ==> rest[0] != i + 1;
        [i] + rest
      else
        rest
  }

  /** `findPeaks`: the indices of all strict local maxima, in increasing order. */
  function FindPeaks(xs: seq<real>): (r: seq<nat>)
    ensures forall k :: 0 <= k < |r| ==> IsPeak(xs, r[k])
    ensures forall k :: 0 < k < |r| ==> r[k - 1] + 2 <= r[k]
    ensures forall j :: IsPeak(xs, j) <==> j in r
    ensures |xs| < 3 ==> r == []
  {
    PeaksFrom(xs, 1)
  }

  /** Peaks are at least two apart and lie in [1, n - 2], so at most
      (n - 1) / 2 of them fit. */
  lemma PeakCountBound(xs: seq<real>)
    ensures |FindPeaks(xs)| > 0 ==> 2 * |FindPeaks(xs)| + 1 <= |xs|
  {
    var r := FindPeaks(xs);
    if |r| > 0 {
      PeaksSpread(r, |r| - 1);
    }
  }

  lemma {:induction false} PeaksSpread(r: seq<nat>, k: nat)
    requires forall m :: 0 < m < |r| ==> r[m - 1] + 2 <= r[m]
    requires k < |r|
    ensures r[0] + 2 * k <= r[k]
  {
    if k > 0 {
      PeaksSpread(r, k - 1);
    }
  }

  /** A series that strictly rises to an interior index and strictly falls after
      it has exactly one peak, there. */
  lemma UnimodalSinglePeak(xs: seq<real>, top: nat)
    requires 1 <= top < |xs| - 1
    requires forall k :: 0 < k <= top ==> xs[k - 1] < xs[k]
    requires forall k :: top <= k < |xs| - 1 ==> xs[k] > xs[k + 1]
    ensures FindPeaks(xs) == [top]
  {
    var r := FindPeaks(xs);
    assert IsPeak(xs, top);
    forall k | 0 <= k < |r| ensures r[k] == top {
      assert IsPeak(xs, r[k]);
    }
    PeaksSpread(r, |r| - 1);
  }

  /** Timestamps at least `gap` apart, as the analyzer's rate limit leaves them. */
  predicate Spaced(ts: seq<int>, gap: nat)
  {
    forall k :: 0 < k < |ts| ==> ts[k - 1] + gap <= ts[k]
  }

  lemma {:induction false} SpacedDistance(ts: seq<int>, gap: nat, i: nat, j: nat)
    requires Spaced(ts, gap)
    requires i <= j < |ts|
    ensures ts[i] + gap * (j - i) <= ts[j]
    decreases j - i
  {
    if i < j {
      SpacedDistance(ts, gap, i, j - 1);
      assert gap * (j - i) == gap * (j - 1 - i) + gap;
    }
  }

  /** `calculateRR`: `null` when fewer than two peaks are found in the smoothed
      intensities; otherwise one interval per pair of consecutive peaks, the
      difference of their timestamps. There are at most (n - 3) / 2 of them,
      and with timestamps `gap` apart each is at least `2 * gap`. */
  function CalculateRR(timestamps: seq<int>, intensities: seq<real>): (r: Option<seq<int>>)
    requires |timestamps| == |intensities|
    ensures var peaks := FindPeaks(SmoothData(intensities));
      && (r.None? <==> |peaks| < 2)
      && (r.Some? ==>
        && |r.value| == |peaks| - 1
        && 2 * |r.value| + 3 <= |timestamps|
        && forall k :: 0 <= k < |r.value| ==>
             r.value[k] == timestamps[peaks[k + 1]] - timestamps[peaks[k]])
  {
    var peaks := FindPeaks(SmoothData(intensities));
    PeakCountBound(SmoothData(intensities));
    if |peaks| < 2 then None
    else Some(Gaps(timestamps, peaks))
  }

  /** The timestamp differences between consecutive indices of `peaks`. */
  function Gaps(timestamps: seq<int>, peaks: seq<nat>): (r: seq<int>)
    requires |peaks| > 0
    requires forall k :: 0 <= k < |peaks| ==> peaks[k] < |timestamps|
    ensures |r| == |peaks| - 1
    ensures forall k :: 0 <= k < |r| ==> r[k] == timestamps[peaks[k + 1]] - timestamps[peaks[k]]
  {
    seq(|peaks| - 1, k requires 0 <= k < |peaks| - 1 =>
      timestamps[peaks[k + 1]] - timestamps[peaks[k]])
  }

  lemma MulAtLeast(a: nat, b: nat, c: nat)
    requires c <= b
    ensures a * c <= a * b
  {
  }

  /** One interval spans at least two sample gaps. */
  lemma PeakPairDistance(timestamps: seq<int>, gap: nat, a: nat, b: nat)
    requires Spaced(timestamps, gap)
    requires a + 2 <= b < |timestamps|
    ensures timestamps[b] - timestamps[a] >= 2 * gap
  {
    SpacedDistance(timestamps, gap, a, b);
    MulAtLeast(gap, b - a, 2);
  }

  /** Consecutive peaks are at least two samples apart, so with samples `gap`
      milliseconds apart every derived interval is at least `2 * gap`. */
  lemma IntervalsAtLeastTwoGaps(timestamps: seq<int>, intensities: seq<real>, gap: nat)
    requires |timestamps| == |intensities|
    requires Spaced(timestamps, gap)
    ensures match CalculateRR(timestamps, intensities)
      case None => true
      case Some(rr) => forall k :: 0 <= k < |rr| ==> rr[k] >= 2 * gap
  {
    var r := CalculateRR(timestamps, intensities);
    if r.Some? {
      var peaks := FindPeaks(SmoothData(intensities));
      var rr := r.value;
      forall k | 0 <= k < |rr| ensures rr[k] >= 2 * gap {
        assert rr[k] == timestamps[peaks[k + 1]] - timestamps[peaks[k]];
        PeakPairDistance(timestamps, gap, peaks[k], peaks[k + 1]);
      }
    }
  }
}

=== FILE: rr_filter.dfy ===
/** The R-R interval outlier filter `filterRRByChange` and its helper `median`
    (HeartRateAnalyzer.java). Intervals are Java `Long` milliseconds. */
module RRFilter {
  import opened Wrappers
  import opened Sequences

  /** Plausible R-R interval range in milliseconds, inclusive at both ends. */
  const RRMin := 300
  const RRMax := 1400

  predicate InRange(x: int)
  {
    RRMin <= x <= RRMax
  }

  predicate AllInRange(xs: seq<int>)
  {
    forall i :: 0 <= i < |xs| ==> InRange(xs[i])
  }

  function Abs(x: int): nat
  {
    if x < 0 then -x else x
  }

  /** Halving a `long` through a `double` and back: the exact half,
      truncated toward zero. */
  function TruncHalf(v: int): (h: int)
    ensures 2 * h <= v + 1 && v - 1 <= 2 * h
    ensures v >= 0 ==> h == v / 2
  {
    if v >= 0 then v / 2 else -((-v) / 2)
  }

  /** `median`: the middle element of a sorted copy, or the truncated mean of the
      two middle elements when the length is even. It always lies between the
      smallest and the largest element. An empty list makes the Java index -1,
      hence the precondition. */
  function Median(xs: seq<int>): (m: int)
    requires |xs| > 0
    ensures exists i :: 0 <= i < |xs| && xs[i] <= m
    ensures exists j :: 0 <= j < |xs| && m <= xs[j]
    ensures |xs| % 2 == 1 ==> m in xs
    ensures |xs| % 2 == 0 ==> m == TruncHalf(Sort(xs)[|xs| / 2 - 1] + Sort(xs)[|xs| / 2])
  {
    var s := Sort(xs);
    SortSortedPermutation(xs);
    var n := |s|;
    var hi := s[n / 2];
    assert hi in multiset(s);
    assert hi in xs;
    if n % 2 == 0 then
      var lo := s[n / 2 - 1];
      assert lo in multiset(s);
      assert lo in xs;
      TruncHalf(lo + hi)
    else
      hi
  }

  /** Relative change of `a` against `reference` in `Long` arithmetic: the
      number of whole multiples of `reference` that fit in their distance.
      Both operands are non-negative, so Java's truncating division agrees
      with Dafny's. */
  function Deviation(a: int, reference: int): (d: nat)
    requires reference > 0
    ensures d * reference <= Abs(a - reference) < (d + 1) * reference
  {
    Abs(a - reference) / reference
  }

  /** What element `i` of one pass is compared with: the median for the first
      element, the element just before it (in the list the pass started from)
      for every other one. */
  function Reference(xs: seq<int>, i: int): (ref: int)
    requires 0 <= i < |xs|
    requires AllInRange(xs)
    ensures InRange(ref)
  {
    if i == 0 then Median(xs) else xs[i - 1]
  }

  /** Which elements one pass keeps: those whose deviation, a whole `Long`,
      compares `<=` with the `double` threshold. Every divisor is at least
      `RRMin`, so the pass never divides by zero. */
  function PassMask(xs: seq<int>, threshold: real): (keep: seq<bool>)
    requires AllInRange(xs)
    ensures |keep| == |xs|
    ensures threshold < 0.0 ==> forall i :: 0 <= i < |xs| ==> !keep[i]
    ensures 0.0 <= threshold < 1.0 ==> forall i :: 0 <= i < |xs| ==>
      (keep[i] <==> Abs(xs[i] - Reference(xs, i)) < Reference(xs, i))
  {
    var keep := seq(|xs|, i requires 0 <= i < |xs| && AllInRange(xs) =>
      (Deviation(xs[i], Reference(xs, i)) as real) <= threshold);
    forall i | 0 <= i < |xs| && 0.0 <= threshold < 1.0
      ensures keep[i] <==> Abs(xs[i] - Reference(xs, i)) < Reference(xs, i)
    {
      PassKeepsIffWithinReference(xs[i], Reference(xs, i), threshold);
    }
    keep
  }

  /** One pass of the deviation loop (HeartRateAnalyzer.java lines 298-318). */
  function FilterPass(xs: seq<int>, threshold: real): (r: seq<int>)
    requires AllInRange(xs)
    ensures IsSubsequence(r, xs)
    ensures AllInRange(r)
    ensures |r| <= |xs|
    ensures |r| == |xs| <==> r == xs
    ensures r == Select(xs, PassMask(xs, threshold))
  {
    var r := Select(xs, PassMask(xs, threshold));
    SelectInRange(xs, PassMask(xs, threshold));
    r
  }

  /** Selecting only in-range positions yields an in-range list. */
  lemma {:induction false} SelectInRange(xs: seq<int>, keep: seq<bool>)
    requires |keep| == |xs|
    requires forall i :: 0 <= i < |xs| && keep[i] ==> InRange(xs[i])
    ensures AllInRange(Select(xs, keep))
    decreases |xs|
  {
    if |xs| > 0 {
      SelectInRange(xs[1..], keep[1..]);
    }
  }

  /** With any threshold in [0, 1) (0.3 at the call site) the whole-number
      deviation passes exactly when it is 0, so an interval survives iff it
      differs from its reference by less than the reference itself. */
  lemma PassKeepsIffWithinReference(a: int, reference: int, threshold: real)
    requires reference > 0
    requires 0.0 <= threshold < 1.0
    ensures (Deviation(a, reference) as real) <= threshold <==> Abs(a - reference) < reference
  {
    var d := Deviation(a, reference);
    if d == 0 {
      assert (d as real) == 0.0;
    } else {
      assert (d as real) >= 1.0;
    }
  }

  /** The `while (true)` loop: repeat passes while at least 3 intervals remain
      and the last pass removed something. Each repeated pass strictly shrinks
      the list. The result is either shorter than 3 or a fixed point of a pass. */
  function FilterLoop(xs: seq<int>, threshold: real): (r: seq<int>)
    requires AllInRange(xs)
    ensures IsSubsequence(r, xs)
    ensures AllInRange(r)
    ensures |r| < 3 || FilterPass(r, threshold) == r
    ensures (|xs| < 3 || FilterPass(xs, threshold) == xs) ==> r == xs
    decreases |xs|
  {
    if |xs| < 3 then
      SubsequenceReflexive(xs);
      xs
    else
      var next := FilterPass(xs, threshold);
      if |next| == |xs| then
        SubsequenceReflexive(xs);
        xs
      else
        var r := FilterLoop(next, threshold);
        SubsequenceTransitive(r, next, xs);
        r
  }

  /** One flag per interval: whether it lies in [RRMin, RRMax]. */
  function InRangeMask(xs: seq<int>): (keep: seq<bool>)
    ensures |keep| == |xs|
    ensures forall i :: 0 <= i < |xs| ==> (keep[i] <==> InRange(xs[i]))
  {
    seq(|xs|, i requires 0 <= i < |xs| => InRange(xs[i]))
  }

  /** The hard range gate (lines 281-289): drops every interval outside
      [RRMin, RRMax], keeping the others in order. */
  function RangeGate(xs: seq<int>): (r: seq<int>)
    ensures IsSubsequence(r, xs)
    ensures |r| == CountKept(InRangeMask(xs))
    ensures AllInRange(r)
    ensures forall i :: 0 <= i < |xs| && InRange(xs[i]) ==> xs[i] in r
    ensures AllInRange(xs) ==> r == xs
  {
    var keep := InRangeMask(xs);
    var r := Select(xs, keep);
    SelectInRange(xs, keep);
    assert AllInRange(xs) ==> CountKept(keep) == |xs|;
    r
  }

  /** `filterRRByChange`: `null` in, `null` out; otherwise the range gate
      followed by the deviation loop. */
  function FilterRRByChange(rr: Option<seq<int>>, threshold: real): (r: Option<seq<int>>)
    ensures r.None? <==> rr.None?
    ensures rr.Some? ==> IsSubsequence(r.value, rr.value) && AllInRange(r.value)
    ensures r.Some? ==> |r.value| < 3 || FilterPass(r.value, threshold) == r.value
    ensures rr.Some? && AllInRange(rr.value) && (|rr.value| < 3 || FilterPass(rr.value, threshold) == rr.value)
      ==> r == rr
  {
    match rr
    case None => None
    case Some(xs) =>
      var gated := RangeGate(xs);
      var out := FilterLoop(gated, threshold);
      SubsequenceTransitive(out, gated, xs);
      Some(out)
  }

  /** Filtering an already filtered list returns it unchanged. */
  lemma FilterIdempotent(rr: Option<seq<int>>, threshold: real)
    ensures FilterRRByChange(FilterRRByChange(rr, threshold), threshold) == FilterRRByChange(rr, threshold)
  {
    var once := FilterRRByChange(rr, threshold);
    if once.Some? {
      var xs := once.value;
      assert RangeGate(xs) == xs;
      if |xs| >= 3 {
        assert FilterPass(xs, threshold) == xs;
      }
    }
  }

  lemma MedianOfOddLength(xs: seq<int>)
    requires |xs| % 2 == 1
    ensures Median(xs) == Sort(xs)[|xs| / 2]
  {
  }

}

=== FILE: rr_history.dfy ===
/** The bounded R-R history `addRRElements` (HeartRateAnalyzer.java). */
module RRHistory {
  import opened Wrappers

  /** The capacity the analyzer passes (line 70); the method's own comment
      speaks of 30, but the call site decides. */
  const HistoryCapacity := 10

  function Max(a: int, b: int): int
  {
    if a < b then b else a
  }

  /** How many of the oldest intervals `addRRElements` removes: the overflow
      `|original| + |batch| - capacity`, but never more than `original` holds
      (the loop's `break` once the list is empty). */
  function Evicted(originalLength: nat, batchLength: nat, capacity: int): (k: nat)
    ensures k <= originalLength
  {
    var total := originalLength + batchLength;
    if total > capacity then
      var toRemove := total - capacity;
      if toRemove < originalLength then toRemove else originalLength
    else 0
  }

  /** `addRRElements(original, newElements, capacity)` as a value: a `null` batch
      changes nothing; otherwise the oldest intervals are evicted from the head
      and the whole batch is appended. The batch is never truncated, so the
      result may exceed the capacity when the batch alone does. */
  function AddRRElements(original: seq<int>, batch: Option<seq<int>>, capacity: int): (r: seq<int>)
    ensures batch.None? ==> r == original
    ensures batch.Some? ==>
      var b := batch.value;
      var kept := |r| - |b|;
      && |b| <= |r|
      && r[kept..] == b
      && kept <= |original|
      && r[..kept] == original[|original| - kept..]
      && |r| <= Max(capacity, |b|)
      && (|original| + |b| <= capacity ==> r == original + b)
      && (|original| + |b| > capacity ==> |r| == Max(capacity, |b|))
  {
    match batch
    case None => original
    case Some(b) =>
      var k := Evicted(|original|, |b|, capacity);
      var r := original[k..] + b;
      assert r[..|r| - |b|] == original[k..];
      r
  }
}

=== FILE: scenarios.dfy ===
module Scenarios {
  import opened Wrappers
  import opened Sequences
  import opened RRFilter
  import opened RRHistory
  import opened HeartRate

  /** The sort behind `median` on a small window. */
  lemma SortExample()
    ensures Sort([1000, 700, 1000]) == [700, 1000, 1000]
  {
    var a := [1000, 700, 1000];
    assert a[1..] == [700, 1000];
    assert [700, 1000][1..] == [1000];
    assert [1000][1..] == [];
    assert Sort([]) == [];
    assert Sort([1000]) == Insert(1000, []) == [1000];
    assert Sort([700, 1000]) == Insert(700, [1000]) == [700, 1000];
    assert Insert(1000, [1000]) == [1000, 1000];
    assert Insert(1000, [700, 1000]) == [700] + Insert(1000, [1000]);
    assert Sort(a) == Insert(1000, [700, 1000]);
  }

  /** 1000 then 700 then 1000 change by 30% and 43%, yet all three survive.
      The 30% change would pass `<= 0.3` with any division; the 43% change
      survives only because the `Long` quotient 300 / 700 is 0. */
  lemma FilterKeepsLargeJumps()
    ensures FilterRRByChange(Some([1000, 700, 1000]), 0.3) == Some([1000, 700, 1000])
  {
    var xs := [1000, 700, 1000];
    assert AllInRange(xs);
    assert RangeGate(xs) == xs;
    assert Median(xs) == 1000 by {
      SortExample();
      MedianOfOddLength(xs);
    }
    assert FilterPass(xs, 0.3) == xs by {
      var keep := PassMask(xs, 0.3);
      assert Deviation(1000, 1000) == 0;
      assert Deviation(700, 1000) == 0;
      assert Deviation(1000, 700) == 0;
      assert keep[0] && keep[1] && keep[2];
      assert CountKept(keep) == 3;
    }
    assert FilterLoop(xs, 0.3) == xs;
  }

  /** Three one-second intervals give 60 beats per minute. */
  lemma SteadyOneSecondIsSixty()
    ensures CalculateHeartRate(Some([1000, 1000, 1000])) == 60
  {
    assert SumDurations([1000, 1000, 1000]) == 3000 by {
      assert [1000, 1000, 1000][..2] == [1000, 1000];
      assert [1000, 1000][..1] == [1000];
      assert [1000][..0] == [];
    }
  }

  /** A batch longer than the capacity survives whole and evicts everything
      that came before it. */
  lemma OversizedBatchReplacesHistory()
    ensures AddRRElements([1, 2, 3], Some([4, 5, 6, 7, 8, 9, 10, 11, 12, 13, 14]), HistoryCapacity)
         == [4, 5, 6, 7, 8, 9, 10, 11, 12, 13, 14]
  {
  }
}

=== FILE: sequences.dfy ===
/** Generic sequence facts the filtering stages rely on: order-preserving
    subsequences, selection by a keep-mask, and a sorted copy. */
module Sequences {

  /** `a` is obtained from `b` by deleting elements without reordering the rest. */
  predicate IsSubsequence(a: seq<int>, b: seq<int>)
    decreases |b|
  {
    if |a| == 0 then true
    else if |b| == 0 then false
    else (a[0] == b[0] && IsSubsequence(a[1..], b[1..])) || IsSubsequence(a, b[1..])
  }

  lemma {:induction false} SubsequenceReflexive(a: seq<int>)
    ensures IsSubsequence(a, a)
    decreases |a|
  {
    if |a| > 0 {
      SubsequenceReflexive(a[1..]);
    }
  }

  lemma {:induction false} SubsequenceMembers(a: seq<int>, b: seq<int>)
    requires IsSubsequence(a, b)
    ensures |a| <= |b|
    ensures forall x :: x in a ==> x in b
    decreases |b|
  {
    if |a| == 0 {
    } else if a[0] == b[0] && IsSubsequence(a[1..], b[1..]) {
      SubsequenceMembers(a[1..], b[1..]);
      assert a == [a[0]] + a[1..];
      assert b == [b[0]] + b[1..];
    } else {
      SubsequenceMembers(a, b[1..]);
      assert b == [b[0]] + b[1..];
    }
  }

  lemma {:induction false} SubsequenceTransitive(a: seq<int>, b: seq<int>, c: seq<int>)
    requires IsSubsequence(a, b) && IsSubsequence(b, c)
    ensures IsSubsequence(a, c)
    decreases |c|
  {
    if |a| == 0 {
    } else if b[0] == c[0] && IsSubsequence(b[1..], c[1..]) {
      if a[0] == b[0] && IsSubsequence(a[1..], b[1..]) {
        SubsequenceTransitive(a[1..], b[1..], c[1..]);
      } else {
        SubsequenceTransitive(a, b[1..], c[1..]);
      }
    } else {
      SubsequenceTransitive(a, b, c[1..]);
    }
  }

  /** Number of positions a keep-mask selects. */
  function CountKept(keep: seq<bool>): (n: nat)
    ensures n <= |keep|
    ensures n == |keep| <==> forall i :: 0 <= i < |keep| ==> keep[i]
  {
    if |keep| == 0 then 0
    else (if keep[0] then 1 else 0) + CountKept(keep[1..])
  }

  /** The elements of `xs` whose mask bit is set, in their original order:
      the shape of every Java "copy the survivors into a new list" loop. */
  function Select(xs: seq<int>, keep: seq<bool>): (r: seq<int>)
    requires |keep| == |xs|
    ensures IsSubsequence(r, xs)
    ensures |r| == CountKept(keep)
    ensures |r| == |xs| ==> r == xs
    ensures forall i :: 0 <= i < |xs| && keep[i] ==> xs[i] in r
    ensures |xs| == 1 ==> r == (if keep[0] then xs else [])
    decreases |xs|
  {
    if |xs| == 0 then []
    else
      var rest := Select(xs[1..], keep[1..]);
      assert forall i :: 1 <= i < |xs| && keep[i] ==> xs[i] in rest by {
        forall i | 1 <= i < |xs| && keep[i] ensures xs[i] in rest {
          assert xs[1..][i - 1] == xs[i];
        }
      }
      if keep[0] then
        SubsequenceReflexive(xs[1..]);
        [xs[0]] + rest
      else
        SubsequenceRelax(rest, xs);
        rest
  }

  /** Selection distributes over concatenation. With the one-element case in
      `Select`'s contract, this fixes which positions survive: exactly the
      flagged ones, in their original order. */
  lemma {:induction false} SelectAppend(a: seq<int>, ka: seq<bool>, b: seq<int>, kb: seq<bool>)
    requires |ka| == |a| && |kb| == |b|
    ensures Select(a + b, ka + kb) == Select(a, ka) + Select(b, kb)
    decreases |a|
  {
    if |a| > 0 {
      var ab, kab := a + b, ka + kb;
      assert ab[0] == a[0] && kab[0] == ka[0];
      assert ab[1..] == a[1..] + b && kab[1..] == ka[1..] + kb;
      SelectAppend(a[1..], ka[1..], b, kb);
      var head := if ka[0] then [a[0]] else [];
      assert Select(ab, kab) == head + Select(ab[1..], kab[1..]);
      assert Select(a, ka) == head + Select(a[1..], ka[1..]);
    } else {
      assert a + b == b && ka + kb == kb;
    }
  }

  /** Dropping the head of `b` keeps every subsequence of its tail a subsequence. */
  lemma SubsequenceRelax(a: seq<int>, b: seq<int>)
    requires |b| > 0 && IsSubsequence(a, b[1..])
    ensures IsSubsequence(a, b)
  {
  }

  predicate Sorted(s: seq<int>)
  {
    forall i, j :: 0 <= i < j < |s| ==> s[i] <= s[j]
  }

  function Insert(x: int, s: seq<int>): (r: seq<int>)
    ensures |r| == |s| + 1
    decreases |s|
  {
    if |s| == 0 then [x]
    else if x <= s[0] then [x] + s
    else [s[0]] + Insert(x, s[1..])
  }

  /** Insertion adds exactly `x`. */
  lemma {:induction false} InsertPermutation(x: int, s: seq<int>)
    ensures multiset(Insert(x, s)) == multiset(s) + multiset{x}
    decreases |s|
  {
    if |s| > 0 && x > s[0] {
      InsertPermutation(x, s[1..]);
      assert s == [s[0]] + s[1..];
    }
  }

  /** Insertion into a sorted list keeps it sorted. */
  lemma {:induction false} InsertSorted(x: int, s: seq<int>)
    requires Sorted(s)
    ensures Sorted(Insert(x, s))
    decreases |s|
  {
    if |s| > 0 && x > s[0] {
      var rest := Insert(x, s[1..]);
      InsertSorted(x, s[1..]);
      InsertPermutation(x, s[1..]);
      forall k | 0 <= k < |rest| ensures s[0] <= rest[k] {
        assert rest[k] in multiset(rest);
        assert rest[k] == x || rest[k] in multiset(s[1..]);
      }
      assert Insert(x, s) == [s[0]] + rest;
    }
  }

  /** Inserting into a sorted list keeps it sorted and adds exactly `x`. */
  lemma InsertSortedPermutation(x: int, s: seq<int>)
    requires Sorted(s)
    ensures Sorted(Insert(x, s))
    ensures multiset(Insert(x, s)) == multiset(s) + multiset{x}
  {
    InsertSorted(x, s);
    InsertPermutation(x, s);
  }

  /** Insertion sort: the ascending copy `Collections.sort` produces. */
  function Sort(s: seq<int>): (r: seq<int>)
    ensures |r| == |s|
    decreases |s|
  {
    if |s| == 0 then [] else Insert(s[0], Sort(s[1..]))
  }

  lemma {:induction false} SortSortedPermutation(s: seq<int>)
    ensures Sorted(Sort(s))
    ensures multiset(Sort(s)) == multiset(s)
    decreases |s|
  {
    if |s| > 0 {
      SortSortedPermutation(s[1..]);
      InsertSortedPermutation(s[0], Sort(s[1..]));
      assert s == [s[0]] + s[1..];
    }
  }
}

=== FILE: wrappers.dfy ===
/** A Java reference that may be `null`, as the analyzer's list arguments and
    decoded bitmaps can be. */
module Wrappers {

  datatype Option<+T> = None | Some(value: T)
}
